=== FILE: README.md ===
# Keyword sentiment analysis and insight aggregation, in Dafny

This project models the core of a small sentiment-analysis service. The core has two parts:

- **Keyword analyzer** (`KeywordBasedSentimentAnalyzer`). It lower-cases a statement. It filters each of the three configured keyword lists (positive, negative, neutral) down to the keywords that occur in the statement as plain substrings. It then picks a label from the three match counts. POSITIVE or NEGATIVE needs a strict majority over both other counts; everything else is NEUTRAL, including every tie. Finally it derives a clamped score and a confidence.
- **Insight aggregator** (`AdvancedInsightGenerator`). It folds a batch of analysis results into four things: a three-key label distribution, the mean score, a summary trend (the strict-majority label, or mixed), and an ordered list of recommendations. Each recommendation is chosen by an independent threshold rule.

The default classification policy (`AnalyzerConfig`) is modelled with its keyword lists and score bounds.

Files and modules:

- `text.dfy` (`Text`): lower-casing and naive substring search. The search is proved equal to the positional definition of a substring.
- `models.dfy` (`Models`): labels, the analysis result, the configuration and its defaults, label counts with the strict-majority predicate, and the summary shape.
- `analyzer.dfy` (`Analyzer`): keyword matching, classification, `Analyze` and `AnalyzeBatch`.
- `insight.dfy` (`Insight`): the tally fold, the dominance rule, the recommendation rules, `Generate`, and the analyze-then-aggregate pipeline.
- `defaults.dfy` (`DefaultPolicy`): what the shipped configuration implies.

The random NEUTRAL score (`random.uniform(0.4, 0.6)`) is a caller-supplied value `neutralDraw`, required to lie in [0.4, 0.6]. A batch takes one such value per statement, and it is used only if that statement comes out NEUTRAL.

Two properties of the code matter for reading the contracts:

- The keyword collections are lists. Order and duplicates both matter: "disappointing" is listed twice, so it counts twice.
- A NEUTRAL confidence is `0.5 + 0.1·u` with no cap, so it exceeds 1 once six or more neutral keywords match. The shipped neutral list has six.

## Model

| member | source | states |
|---|---|---|
| Text.ToLower | main.py:63 | The lowered statement has the same length, is free of upper-case letters, lowers each character in place, and leaves an already lower-case string unchanged. |
| Text.OccursIffSomePosition | main.py:66-68 | The keyword test `word in statement_lower` holds exactly when the keyword equals some slice of the statement (the empty keyword occurs everywhere). |
| Text.OccursAtIsFound | main.py:66-68 | An occurrence at any position is found by the substring search. |
| Text.ToLowerSlice | main.py:63 | Lower-casing a statement and then taking a slice gives the same string as lower-casing the slice. |
| Text.CaseVariantIsMatched | main.py:63-68 | A word occurring in the raw statement in any mix of cases occurs, lower-cased, in the lowered statement. |
| Text.MatchIffSomeSliceLowersTo | main.py:63-68 | A keyword is found in the lowered statement exactly when some slice of the original statement, in whatever case, lower-cases to the keyword. |
| Text.MatchedKeywordIsLowerCase | main.py:63-68 | Only keywords without upper-case letters can ever match the lowered statement. |
| Models.AllLabels | models.py:8-11 | There are exactly three sentiment labels: positive, negative and neutral. |
| Models.ValueInjective | models.py:8-11 | The three labels have pairwise distinct values. |
| Models.DefaultConfig | models.py:85-99 | The shipped policy has 11 positive, 10 negative and 6 neutral keywords, and its score bounds satisfy 0 < minimum_score < maximum_score < 1. |
| Models.StrictMajorityUnique | main.py:139-146 | At most one label can outnumber both others, so the majority branches exclude each other. |
| Analyzer.Matches | main.py:66-68 | A match list is no longer than its keyword list, and a keyword is in it exactly when it is configured and occurs in the text. |
| Analyzer.MatchesMultiplicity | main.py:66-68 | Each occurring keyword is kept as many times as it is configured; non-occurring keywords are dropped. |
| Analyzer.MatchesIsSubsequence | main.py:66-68 | A match list keeps the configuration order (an order-preserving filter). |
| Analyzer.KeywordCounts | main.py:70-72 | Each count is at most the length of its keyword list. |
| Analyzer.Classify | main.py:75-89 | POSITIVE exactly when p > n and p > u, NEGATIVE exactly when n > p and n > u, NEUTRAL otherwise (all ties and the all-zero case). |
| Analyzer.Analyze | main.py:61-96 | The label follows the strict-majority rule. The keywords are the chosen category's matches, all found in the lowered statement, and at least one for POSITIVE/NEGATIVE. A POSITIVE score is min(maximum_score, 0.6 + 0.1·p), so at most maximum_score. A NEGATIVE score is max(minimum_score, 0.4 − 0.1·n), so at least minimum_score. A POSITIVE or NEGATIVE confidence is min(0.95, 0.5 + 0.15·k) for its k matches, so it lies in [0.65, 0.95]. A NEUTRAL score is the draw in [0.4, 0.6], with confidence 0.5 + 0.1·u. |
| Analyzer.NoMatchIsNeutral | main.py:85-89 | A statement matching no keyword is NEUTRAL with no keywords and confidence 0.5. |
| Analyzer.EmptyStatementIsNeutral | main.py:85-89 | The empty statement is NEUTRAL when no keyword is empty. |
| Analyzer.AnalyzeIgnoresCase | main.py:63 | Analyzing a lower-cased statement gives the same result as analyzing the original. |
| Analyzer.DrawAffectsOnlyNeutralScore | main.py:85-88 | The random draw changes nothing but a NEUTRAL result's score. |
| Analyzer.AnalyzeBatch | main.py:98-100 | The batch has one result per statement, and the i-th result is the analysis of the i-th statement. |
| Analyzer.AnalyzeBatchAppend | main.py:98-100 | Statements are analyzed independently: the batch of a concatenation is the concatenation of the batches. |
| Insight.Step | main.py:124-128 | One loop iteration counts the result's own label once, adds its score to the total, and adds one to the high-confidence count exactly when its confidence exceeds 0.7. |
| Insight.TallyResults | main.py:119-128 | The three label counts add up to the batch size, and the high-confidence count is at most the batch size. |
| Insight.TallyCountsHighConfidence | main.py:127-128 | The high-confidence count is the number of results whose confidence exceeds 0.7. |
| Insight.TallyCountsLabels | main.py:124-125 | Each label's count equals the number of results carrying that label. |
| Insight.TallyAppend | main.py:124-128 | Tallying a concatenated batch equals combining the tallies of its parts. |
| Insight.TallyOrderIrrelevant | main.py:124-128 | Swapping two parts of a batch does not change the tally. |
| Insight.ScoreSumBounds | main.py:126 | If every score lies in [lo, hi], the score total lies between n·lo and n·hi. |
| Insight.Mean | main.py:130 | The average times the number of results is the score total. |
| Insight.Fraction | main.py:132 | The confidence ratio lies in [0, 1], and times the number of results gives the high-confidence count. |
| Insight.Distribution | main.py:120 | The distribution has exactly the three label keys, each mapped to its count. |
| Insight.Dominance | main.py:139-146 | The trend names the label with a strict majority, and is mixed exactly when no label has one. |
| Insight.Remediation | main.py:166-168 | The remediation pair is emitted exactly when neg > pos. |
| Insight.Amplification | main.py:170-172 | The amplification pair is emitted exactly when pos > 0.6·total. |
| Insight.Engagement | main.py:174-176 | The engagement pair is emitted exactly when neu > 0.4·total. |
| Insight.OverallScore | main.py:178-181 | "Critical" is emitted exactly when avg < 0.4 and "Excellent" exactly when avg > 0.7, never both. |
| Insight.DataSufficiency | main.py:183-184 | The data-sufficiency note is emitted exactly when confidence_ratio < 0.5. |
| Insight.Recommend | main.py:162-186 | A recommendation is in the list exactly when its rule fires. The list is in the fixed rule order without repetition, has at most 8 entries, and never holds both "Critical" and "Excellent". Each entry stands for the source's text verbatim (`Models.Recommendation.Text`). |
| Insight.RecommendationsDetermined | main.py:162-186 | Any rule-ordered list holding exactly the firing recommendations is the one produced. |
| Insight.Generate | main.py:108-160 | Empty input gives no summary sentence, an empty distribution, average 0, total 0 and no recommendations. Otherwise the total is the input length. The distribution has the three label keys, holds the tallied count of each label and sums to the total. The average is the mean score. The trend is the strict-majority label or mixed. The confidence ratio is the high-confidence fraction. The recommendations follow the rules on these values. |
| Insight.DistributionCountsLabels | main.py:120-125 | For a non-empty batch, each label's distribution entry equals the number of results carrying that label. |
| Insight.ConfidenceRatioCountsHighConfidence | main.py:132 | The confidence ratio is the fraction of results whose confidence exceeds 0.7. |
| Insight.AverageWithinScoreBounds | main.py:130 | If every score lies in [lo, hi], so does the average. |
| Insight.NegativeTrendLeadsWithRemediation | main.py:141-168 | A negative-majority summary always opens its recommendations with the remediation pair. |
| Insight.GenerateInsights | main.py:270-279 | The service's insight is the aggregate of the analyzed batch. It reports one statement per input, gives the "nothing to analyze" summary exactly for an empty input, and otherwise has the three label keys. |
| DefaultPolicy.DefaultKeywordsLowerCase | models.py:86-96 | Every shipped keyword is already lower-case. |
| DefaultPolicy.ShippedKeywordIsLowerCase | models.py:86-96 | Each keyword in any of the shipped lists is lower-case. |
| DefaultPolicy.DefaultMatchingIgnoresCase | models.py:86-96 | Under the shipped policy, a keyword written in the statement in any mix of cases (for example "LOVE" for "love") is found in the lowered statement. |
| DefaultPolicy.DefaultPositiveScoreRange | main.py:75-79 | Under the shipped bounds a POSITIVE score lies in [0.7, 0.9]. |
| DefaultPolicy.DefaultNegativeScoreRange | main.py:80-84 | Under the shipped bounds a NEGATIVE score lies in [0.1, 0.3]. |
| DefaultPolicy.DefaultEmptyStatementIsNeutral | main.py:85-89 | Under the shipped policy the empty statement is NEUTRAL with no keywords and confidence 0.5. |
| DefaultPolicy.DisappointingMatchesTwice | models.py:90-93 | A statement containing "disappointing" yields that keyword twice among its negative matches. |

## Left out

- HTTP endpoints, request validation, the 400/500 responses and `HTTPException` wrapping (main.py:289-364, main.py:245-279): framework plumbing. `Insight.GenerateInsights` keeps only the analyze-then-aggregate composition.
- `JsonDataRepository` and its fallback statements (main.py:188-232): file I/O with no algorithmic content.
- The `include_metadata` recommendation of the bulk endpoint (main.py:325-329): it re-runs the analyzer and formats a string.
- `random.uniform(0.4, 0.6)`: replaced by the caller-supplied `neutralDraw`. The distribution of the draw is not modelled.
- Logging, latency timing and the health-check timestamp: side effects and wall-clock time.
- The summary sentence's wording, counts and percentages (main.py:140-149): `Summary` records only the trend and the high-confidence ratio the sentence reports. Recommendation strings are kept verbatim in `Recommendation.Text`.
- Insight.Generate: the reported `average_score` is the exact mean, not `round(average_score, 3)`. Rounding is not modelled. The recommendation rules see the unrounded mean, as in the code.
- Insight.Generate: the score total, the mean and the `avg_score < 0.4` / `avg_score > 0.7` tests are decided on exact reals, not doubles. Take a one-match POSITIVE result (score 0.7) and a three-match NEGATIVE result (score 0.1). The code's total is 0.7999999999999999 and its average 0.39999999999999997, so it emits "Critical". The model's average is exactly 0.4, so it emits no overall-score recommendation.
- Insight.ScoreSumBounds: the bounds hold over exact reals only. In the code, three scores of 0.7 add up to 2.0999999999999996, below 3·0.7.
- Insight.AverageWithinScoreBounds: the bounds hold over exact reals only. In the code, three scores of 0.7 average 0.6999999999999998, below the lower bound 0.7.
- Analyzer.Analyze: scores and confidences are exact reals, not binary floating point. For example, the code computes the NEGATIVE score for one match, 0.4 − 1·0.1, as 0.30000000000000004, while the model gives 0.3.
- Insight.TallyOrderIrrelevant: the score-total part holds over exact reals only. The code adds floating-point scores left to right, so the order matters. For the POSITIVE scores 0.7, 0.8 and 0.9, the order [0.7, 0.8] then [0.9] sums to 2.4, while [0.9] then [0.7, 0.8] sums to 2.4000000000000004. The label counts and the high-confidence count are order-independent in the code too.
- Insight.TallyAppend: the score total of a concatenation equals the sum of the parts' totals over exact reals only. In floating point, adding a part's total is not the same as adding its scores one by one (the example above).
- DefaultPolicy.DefaultNegativeScoreRange: the upper bound 0.3 holds for the model's exact reals only. The code's floating-point NEGATIVE score for one match is 0.30000000000000004, just above it.
- Text.ToLower: only ASCII A-Z are lower-cased. Python's full Unicode case mapping is not modelled.
- The distribution is keyed by the label itself rather than by its string value. `Models.ValueInjective` shows that the two keyings are interchangeable.
- `AnalyzerConfig.confidence_threshold` is carried but never consulted, as in the code. The aggregator uses its own constant 0.7 (`Insight.HighConfidenceThreshold`).
- The aggregator takes the analysis results themselves rather than the response records that also carry the statement text. It reads only the label, score and confidence.
- Pydantic validation, the abstract base classes, and the unused `ProcessingMetrics`, `CategoryType`, `ErrorResponse` and `HealthResponse` models: schema plumbing with no behaviour.

=== FILE: analyzer.dfy ===
/** The keyword-based sentiment analyzer: a statement is lower-cased, each
    configured keyword list is filtered down to the keywords occurring in it,
    and the three match counts decide the label, score and confidence. */
module Analyzer {

  import opened Text
  import opened Models

  /** Bounds of the random score a NEUTRAL result receives. */
  const NeutralScoreLow: real := 0.4
  const NeutralScoreHigh: real := 0.6

  function Min(a: real, b: real): (m: real)
    ensures m <= a && m <= b
    ensures m == a || m == b
  {
    if b < a then b else a
  }

  function Max(a: real, b: real): (m: real)
    ensures m >= a && m >= b
    ensures m == a || m == b
  {
    if b > a then b else a
  }

  /** The keywords of `keywords` that occur in `text`, in list order, with
      duplicates kept. */
  function Matches(keywords: seq<string>, text: string): (found: seq<string>)
    ensures |found| <= |keywords|
    ensures forall k :: k in found <==> k in keywords && Occurs(k, text)
  {
    if keywords == [] then []
    else
      (if Occurs(keywords[0], text) then [keywords[0]] else [])
      + Matches(keywords[1..], text)
  }

  /** Each matching keyword is kept as many times as the list holds it;
      every other keyword is dropped. */
  lemma {:induction false} MatchesMultiplicity(keywords: seq<string>, text: string, k: string)
    ensures multiset(Matches(keywords, text))[k]
            == if Occurs(k, text) then multiset(keywords)[k] else 0
  {
    if keywords != [] {
      MatchesMultiplicity(keywords[1..], text, k);
      assert keywords == [keywords[0]] + keywords[1..];
    }
  }

  lemma NothingOccursNothingMatches(keywords: seq<string>, text: string)
    requires forall k :: k in keywords ==> !Occurs(k, text)
    ensures Matches(keywords, text) == []
  {
    if keywords != [] {
      NothingOccursNothingMatches(keywords[1..], text);
    }
  }

  /** `xs` is `ys` with some elements left out and the rest kept in order. */
  ghost predicate IsSubsequence(xs: seq<string>, ys: seq<string>)
    decreases |ys|
  {
    if xs == [] then true
    else if ys == [] then false
    else (xs[0] == ys[0] && IsSubsequence(xs[1..], ys[1..])) || IsSubsequence(xs, ys[1..])
  }

  /** Matching never reorders the configured keywords. */
  lemma {:induction false} MatchesIsSubsequence(keywords: seq<string>, text: string)
    ensures IsSubsequence(Matches(keywords, text), keywords)
  {
    if keywords != [] {
      var rest := Matches(keywords[1..], text);
      MatchesIsSubsequence(keywords[1..], text);
      if Occurs(keywords[0], text) {
        assert Matches(keywords, text) == [keywords[0]] + rest;
        assert ([keywords[0]] + rest)[1..] == rest;
      } else {
        assert Matches(keywords, text) == rest;
        if rest != [] {
          assert IsSubsequence(rest, keywords[1..]);
        }
      }
    }
  }

  /** The match counts of the three keyword lists against a statement. */
  function KeywordCounts(config: AnalyzerConfig, statement: string): (c: LabelCounts)
    ensures c.positive <= |config.positiveKeywords|
    ensures c.negative <= |config.negativeKeywords|
    ensures c.neutral <= |config.neutralKeywords|
  {
    var lowered := ToLower(statement);
    LabelCounts(
      |Matches(config.positiveKeywords, lowered)|,
      |Matches(config.negativeKeywords, lowered)|,
      |Matches(config.neutralKeywords, lowered)|)
  }

  /** The keyword list of one category matched against a statement. */
  function MatchesFor(config: AnalyzerConfig, sentiment: Sentiment, statement: string): seq<string> {
    var lowered := ToLower(statement);
    match sentiment
    case Positive => Matches(config.positiveKeywords, lowered)
    case Negative => Matches(config.negativeKeywords, lowered)
    case Neutral => Matches(config.neutralKeywords, lowered)
  }

  /** The label chosen from the match counts: POSITIVE or NEGATIVE only on a
      strict majority over both other counts, NEUTRAL otherwise (every tie,
      and no match at all, included). */
  function Classify(c: LabelCounts): (s: Sentiment)
    ensures s == Positive <==> HasStrictMajority(c, Positive)
    ensures s == Negative <==> HasStrictMajority(c, Negative)
    ensures s == Neutral <==> !HasStrictMajority(c, Positive) && !HasStrictMajority(c, Negative)
  {
    StrictMajorityCases(c);
    if c.positive > c.negative && c.positive > c.neutral then Positive
    else if c.negative > c.positive && c.negative > c.neutral then Negative
    else Neutral
  }

  /** Analyzes one statement. `neutralDraw` stands for the random score a
      NEUTRAL result receives; the other labels ignore it. */
  function Analyze(config: AnalyzerConfig, statement: string, neutralDraw: real): (r: AnalysisResult)
    requires NeutralScoreLow <= neutralDraw <= NeutralScoreHigh
    ensures r.sentiment == Classify(KeywordCounts(config, statement))
    ensures r.keywordsFound == MatchesFor(config, r.sentiment, statement)
    ensures forall k :: k in r.keywordsFound ==> Occurs(k, ToLower(statement))
    ensures r.sentiment != Neutral ==> |r.keywordsFound| >= 1
    ensures r.sentiment == Positive ==>
      && r.score <= config.maximumScore
      && r.score == Min(config.maximumScore, 0.6 + 0.1 * |r.keywordsFound| as real)
    ensures r.sentiment == Negative ==>
      && r.score >= config.minimumScore
      && r.score == Max(config.minimumScore, 0.4 - 0.1 * |r.keywordsFound| as real)
    ensures r.sentiment != Neutral ==>
      && r.confidence == Min(0.95, 0.5 + 0.15 * |r.keywordsFound| as real)
      && 0.65 <= r.confidence <= 0.95
    ensures r.sentiment == Neutral ==>
      && NeutralScoreLow <= r.score <= NeutralScoreHigh
      && r.score == neutralDraw
      && r.confidence == 0.5 + 0.1 * |r.keywordsFound| as real
  {
    var lowered := ToLower(statement);
    var positives := Matches(config.positiveKeywords, lowered);
    var negatives := Matches(config.negativeKeywords, lowered);
    var neutrals := Matches(config.neutralKeywords, lowered);
    var counts := LabelCounts(|positives|, |negatives|, |neutrals|);
    match Classify(counts)
    case Positive =>
      AnalysisResult(
        Positive,
        Min(config.maximumScore, 0.6 + |positives| as real * 0.1),
        Min(0.95, 0.5 + |positives| as real * 0.15),
        positives)
    case Negative =>
      AnalysisResult(
        Negative,
        Max(config.minimumScore, 0.4 - |negatives| as real * 0.1),
        Min(0.95, 0.5 + |negatives| as real * 0.15),
        negatives)
    case Neutral =>
      AnalysisResult(Neutral, neutralDraw, 0.5 + |neutrals| as real * 0.1, neutrals)
  }

  /** A statement that matches no keyword at all is NEUTRAL with no keywords
      and the base confidence. */
  lemma NoMatchIsNeutral(config: AnalyzerConfig, statement: string, neutralDraw: real)
    requires NeutralScoreLow <= neutralDraw <= NeutralScoreHigh
    requires forall k :: k in config.positiveKeywords + config.negativeKeywords + config.neutralKeywords ==>
                           !Occurs(k, ToLower(statement))
    ensures Analyze(config, statement, neutralDraw)
            == AnalysisResult(Neutral, neutralDraw, 0.5, [])
  {
    var lowered := ToLower(statement);
    assert forall k :: k in config.positiveKeywords ==> !Occurs(k, lowered);
    assert forall k :: k in config.negativeKeywords ==> !Occurs(k, lowered);
    assert forall k :: k in config.neutralKeywords ==> !Occurs(k, lowered);
    NothingOccursNothingMatches(config.positiveKeywords, lowered);
    NothingOccursNothingMatches(config.negativeKeywords, lowered);
    NothingOccursNothingMatches(config.neutralKeywords, lowered);
  }

  /** The empty statement matches no non-empty keyword, so it is NEUTRAL. */
  lemma EmptyStatementIsNeutral(config: AnalyzerConfig, neutralDraw: real)
    requires NeutralScoreLow <= neutralDraw <= NeutralScoreHigh
    requires forall k :: k in config.positiveKeywords + config.negativeKeywords + config.neutralKeywords ==>
                           k != ""
    ensures Analyze(config, "", neutralDraw) == AnalysisResult(Neutral, neutralDraw, 0.5, [])
  {
    forall k | k in config.positiveKeywords + config.negativeKeywords + config.neutralKeywords
      ensures !Occurs(k, ToLower(""))
    {
      assert ToLower("") == "";
    }
    NoMatchIsNeutral(config, "", neutralDraw);
  }

  /** Matching ignores the case of the statement. */
  lemma AnalyzeIgnoresCase(config: AnalyzerConfig, statement: string, neutralDraw: real)
    requires NeutralScoreLow <= neutralDraw <= NeutralScoreHigh
    ensures Analyze(config, ToLower(statement), neutralDraw) == Analyze(config, statement, neutralDraw)
  {
    ToLowerIdempotent(statement);
  }

  /** The random draw affects only a NEUTRAL result's score. */
  lemma DrawAffectsOnlyNeutralScore(config: AnalyzerConfig, statement: string, d1: real, d2: real)
    requires NeutralScoreLow <= d1 <= NeutralScoreHigh
    requires NeutralScoreLow <= d2 <= NeutralScoreHigh
    ensures var r1 := Analyze(config, statement, d1);
            var r2 := Analyze(config, statement, d2);
            && r1.sentiment == r2.sentiment
            && r1.confidence == r2.confidence
            && r1.keywordsFound == r2.keywordsFound
            && (r1.sentiment != Neutral ==> r1.score == r2.score)
  {
  }

  /** Analyzes each statement independently, in order. `neutralDraws[i]` is
      the random score statement `i` receives if it comes out NEUTRAL. */
  function AnalyzeBatch(config: AnalyzerConfig, statements: seq<string>, neutralDraws: seq<real>)
    : (results: seq<AnalysisResult>)
    requires |neutralDraws| == |statements|
    requires forall i :: 0 <= i < |neutralDraws| ==> NeutralScoreLow <= neutralDraws[i] <= NeutralScoreHigh
    ensures |results| == |statements|
    ensures forall i :: 0 <= i < |statements| ==>
              results[i] == Analyze(config, statements[i], neutralDraws[i])
  {
    seq(|statements|, i requires 0 <= i < |statements| =>
          Analyze(config, statements[i], neutralDraws[i]))
  }

  /** Each statement is analyzed on its own: analyzing two batches one after
      the other is analyzing their concatenation. */
  lemma AnalyzeBatchAppend(config: AnalyzerConfig, s1: seq<string>, d1: seq<real>,
                           s2: seq<string>, d2: seq<real>)
    requires |d1| == |s1| && |d2| == |s2|
    requires forall i :: 0 <= i < |d1| ==> NeutralScoreLow <= d1[i] <= NeutralScoreHigh
    requires forall i :: 0 <= i < |d2| ==> NeutralScoreLow <= d2[i] <= NeutralScoreHigh
    ensures forall i :: 0 <= i < |d1 + d2| ==> NeutralScoreLow <= (d1 + d2)[i] <= NeutralScoreHigh
    ensures AnalyzeBatch(config, s1 + s2, d1 + d2)
            == AnalyzeBatch(config, s1, d1) + AnalyzeBatch(config, s2, d2)
  {
    var d := d1 + d2;
    var s := s1 + s2;
    assert forall i :: 0 <= i < |d| ==> NeutralScoreLow <= d[i] <= NeutralScoreHigh by {
      forall i | 0 <= i < |d|
        ensures NeutralScoreLow <= d[i] <= NeutralScoreHigh
      {
        if i < |d1| {
          assert d[i] == d1[i];
        } else {
          assert d[i] == d2[i - |d1|];
        }
      }
    }
    var whole := AnalyzeBatch(config, s, d);
    var parts := AnalyzeBatch(config, s1, d1) + AnalyzeBatch(config, s2, d2);
    forall i | 0 <= i < |whole|
      ensures whole[i] == parts[i]
    {
      if i < |s1| {
        assert s[i] == s1[i] && d[i] == d1[i];
      } else {
        assert s[i] == s2[i - |s1|] && d[i] == d2[i - |s1|];
      }
    }
  }
}

=== FILE: defaults.dfy ===
/** Facts about the configuration the service ships with: its keyword lists
    and score bounds, and what they imply for the analyzer's output. */
module DefaultPolicy {

  import opened Text
  import opened Models
  import opened Analyzer

  /** Every shipped keyword is already lower-case. */
  lemma DefaultKeywordsLowerCase()
    ensures AllLowerCase(DefaultConfig().positiveKeywords)
    ensures AllLowerCase(DefaultConfig().negativeKeywords)
    ensures AllLowerCase(DefaultConfig().neutralKeywords)
  {
    PositiveKeywordsLowerCase();
    NegativeKeywordsLowerCase();
    NeutralKeywordsLowerCase();
  }

  lemma PositiveKeywordsLowerCase()
    ensures AllLowerCase(DefaultConfig().positiveKeywords)
  {
    var ks := DefaultConfig().positiveKeywords;
    forall i | 0 <= i < |ks|
      ensures IsLowerCase(ks[i])
    {
    }
  }

  lemma NegativeKeywordsLowerCase()
    ensures AllLowerCase(DefaultConfig().negativeKeywords)
  {
    var ks := DefaultConfig().negativeKeywords;
    forall i | 0 <= i < |ks|
      ensures IsLowerCase(ks[i])
    {
    }
  }

  lemma NeutralKeywordsLowerCase()
    ensures AllLowerCase(DefaultConfig().neutralKeywords)
  {
    var ks := DefaultConfig().neutralKeywords;
    forall i | 0 <= i < |ks|
      ensures IsLowerCase(ks[i])
    {
    }
  }

  /** So, under the shipped policy, a keyword written in a statement in any
      mix of cases is still matched. */
  lemma DefaultMatchingIgnoresCase(k: string, w: string, statement: string)
    requires k in DefaultConfig().positiveKeywords + DefaultConfig().negativeKeywords
                  + DefaultConfig().neutralKeywords
    requires ToLower(w) == ToLower(k)
    requires Occurs(w, statement)
    ensures Occurs(k, ToLower(statement))
  {
    ShippedKeywordIsLowerCase(k);
    CaseVariantIsMatched(w, statement);
  }

  /** Each shipped keyword, whichever list holds it, is lower-case. */
  lemma ShippedKeywordIsLowerCase(k: string)
    requires k in DefaultConfig().positiveKeywords + DefaultConfig().negativeKeywords
                  + DefaultConfig().neutralKeywords
    ensures IsLowerCase(k)
  {
    DefaultKeywordsLowerCase();
    var c := DefaultConfig();
    if k in c.positiveKeywords {
      var i :| 0 <= i < |c.positiveKeywords| && c.positiveKeywords[i] == k;
    } else if k in c.negativeKeywords {
      var i :| 0 <= i < |c.negativeKeywords| && c.negativeKeywords[i] == k;
    } else {
      var i :| 0 <= i < |c.neutralKeywords| && c.neutralKeywords[i] == k;
    }
  }

  /** Under the shipped bounds a POSITIVE score lies in [0.7, 0.9]. */
  lemma DefaultPositiveScoreRange(statement: string, neutralDraw: real)
    requires NeutralScoreLow <= neutralDraw <= NeutralScoreHigh
    ensures var r := Analyze(DefaultConfig(), statement, neutralDraw);
            r.sentiment == Positive ==> 0.7 <= r.score <= 0.9
  {
  }

  /** Under the shipped bounds a NEGATIVE score lies in [0.1, 0.3]. */
  lemma DefaultNegativeScoreRange(statement: string, neutralDraw: real)
    requires NeutralScoreLow <= neutralDraw <= NeutralScoreHigh
    ensures var r := Analyze(DefaultConfig(), statement, neutralDraw);
            r.sentiment == Negative ==> 0.1 <= r.score <= 0.3
  {
  }

  /** Under the shipped policy the empty statement is NEUTRAL with no
      keywords and confidence 0.5. */
  lemma DefaultEmptyStatementIsNeutral(neutralDraw: real)
    requires NeutralScoreLow <= neutralDraw <= NeutralScoreHigh
    ensures Analyze(DefaultConfig(), "", neutralDraw) == AnalysisResult(Neutral, neutralDraw, 0.5, [])
  {
    var c := DefaultConfig();
    var all := c.positiveKeywords + c.negativeKeywords + c.neutralKeywords;
    assert forall i :: 0 <= i < |all| ==> all[i] != "";
    EmptyStatementIsNeutral(c, neutralDraw);
  }

  /** "disappointing" is listed twice among the negative keywords, so a
      statement containing it gets two negative matches for it. */
  lemma DisappointingMatchesTwice(statement: string)
    requires Occurs("disappointing", ToLower(statement))
    ensures multiset(MatchesFor(DefaultConfig(), Negative, statement))["disappointing"] == 2
  {
    var d := "disappointing";
    var negatives := DefaultConfig().negativeKeywords;
    assert forall k :: 1 <= k < 9 ==> negatives[k] != d;
    OccursAtBothEndsOnly(negatives, d);
    MatchesMultiplicity(negatives, ToLower(statement), d);
  }

  /** A list holding `x` first and last and nowhere in between holds it twice. */
  lemma OccursAtBothEndsOnly(s: seq<string>, x: string)
    requires |s| >= 2 && s[0] == x && s[|s| - 1] == x
    requires forall k :: 1 <= k < |s| - 1 ==> s[k] != x
    ensures multiset(s)[x] == 2
  {
    var middle := s[1..|s| - 1];
    assert s == [s[0]] + middle + [s[|s| - 1]];
    assert x !in middle;
  }
}

=== FILE: insight.dfy ===
/** The insight aggregator: folds a batch of analysis results into a label
    distribution, an average score, a summary of the overall trend and an
    ordered list of recommendations. */
module Insight {

  import opened Models
  import Analyzer

  /** A result counts as high-confidence above this value. */
  const HighConfidenceThreshold: real := 0.7

  /** What one pass over the results accumulates. */
  datatype Tally = Tally(counts: LabelCounts, scoreSum: real, highConfidence: nat)

  /** The labels of a batch, in order. */
  function Labels(results: seq<AnalysisResult>): (labels: seq<Sentiment>)
    ensures |labels| == |results|
    ensures forall i :: 0 <= i < |results| ==> labels[i] == results[i].sentiment
  {
    seq(|results|, i requires 0 <= i < |results| => results[i].sentiment)
  }

  /** A result the summary counts as analyzed with high confidence. */
  predicate IsHighConfidence(r: AnalysisResult) {
    r.confidence > HighConfidenceThreshold
  }

  /** For each result of a batch, in order, whether it is high-confidence. */
  function Confident(results: seq<AnalysisResult>): (flags: seq<bool>)
    ensures |flags| == |results|
    ensures forall i :: 0 <= i < |results| ==> flags[i] == IsHighConfidence(results[i])
  {
    seq(|results|, i requires 0 <= i < |results| => IsHighConfidence(results[i]))
  }

  /** One iteration of the pass: count the label, add the score, and count
      the result if its confidence is high. */
  function Step(t: Tally, r: AnalysisResult): (u: Tally)
    ensures u.counts == t.counts.Add(r.sentiment)
    ensures u.counts.Total() == t.counts.Total() + 1
    ensures u.scoreSum == t.scoreSum + r.score
    ensures u.highConfidence == t.highConfidence + (if IsHighConfidence(r) then 1 else 0)
  {
    Tally(
      t.counts.Add(r.sentiment),
      t.scoreSum + r.score,
      if IsHighConfidence(r) then t.highConfidence + 1 else t.highConfidence)
  }

  /** The single left-to-right pass over the results. */
  function TallyResults(results: seq<AnalysisResult>): (t: Tally)
    ensures t.counts.Total() == |results|
    ensures t.highConfidence <= |results|
    decreases |results|
  {
    if results == [] then Tally(LabelCounts(0, 0, 0), 0.0, 0)
    else Step(TallyResults(results[..|results| - 1]), results[|results| - 1])
  }

  /** Each label's count is the number of results carrying that label. */
  lemma {:induction false} TallyCountsLabels(results: seq<AnalysisResult>, l: Sentiment)
    ensures TallyResults(results).counts.Of(l) == multiset(Labels(results))[l]
    decreases |results|
  {
    if results != [] {
      var prefix := results[..|results| - 1];
      var last := results[|results| - 1];
      TallyCountsLabels(prefix, l);
      LabelsSnoc(results);
      assert multiset(Labels(results)) == multiset(Labels(prefix)) + multiset{last.sentiment};
    }
  }

  /** The high-confidence count is the number of results whose confidence
      exceeds the threshold. */
  lemma {:induction false} TallyCountsHighConfidence(results: seq<AnalysisResult>)
    ensures TallyResults(results).highConfidence == multiset(Confident(results))[true]
    decreases |results|
  {
    if results != [] {
      var prefix := results[..|results| - 1];
      var last := results[|results| - 1];
      TallyCountsHighConfidence(prefix);
      ConfidentSnoc(results);
      assert multiset(Confident(results)) == multiset(Confident(prefix)) + multiset{IsHighConfidence(last)};
    }
  }

  /** The flags of a batch are those of all but its last result, then the
      last result's flag. */
  lemma ConfidentSnoc(results: seq<AnalysisResult>)
    requires results != []
    ensures Confident(results) == Confident(results[..|results| - 1]) + [IsHighConfidence(results[|results| - 1])]
  {
    var prefix := results[..|results| - 1];
    assert forall i :: 0 <= i < |prefix| ==> prefix[i] == results[i];
  }

  /** The labels of a batch are those of all but its last result, then the
      last result's label. */
  lemma LabelsSnoc(results: seq<AnalysisResult>)
    requires results != []
    ensures Labels(results) == Labels(results[..|results| - 1]) + [results[|results| - 1].sentiment]
  {
    var prefix := results[..|results| - 1];
    assert forall i :: 0 <= i < |prefix| ==> prefix[i] == results[i];
  }

  /** The tallies of two consecutive parts of a batch, added up. */
  function Combine(x: Tally, y: Tally): (t: Tally)
    ensures t.counts.Total() == x.counts.Total() + y.counts.Total()
  {
    Tally(
      LabelCounts(
        x.counts.positive + y.counts.positive,
        x.counts.negative + y.counts.negative,
        x.counts.neutral + y.counts.neutral),
      x.scoreSum + y.scoreSum,
      x.highConfidence + y.highConfidence)
  }

  lemma CombineStep(x: Tally, y: Tally, r: AnalysisResult)
    ensures Combine(x, Step(y, r)) == Step(Combine(x, y), r)
  {
  }

  lemma CombineEmpty(x: Tally)
    ensures Combine(x, TallyResults([])) == x
  {
    var zero := Tally(LabelCounts(0, 0, 0), 0.0, 0);
    assert TallyResults([]) == zero;
    assert Combine(x, zero) == x;
  }

  lemma TallyLast(results: seq<AnalysisResult>, prefix: seq<AnalysisResult>, last: AnalysisResult)
    requires results == prefix + [last]
    ensures TallyResults(results) == Step(TallyResults(prefix), last)
  {
    assert results[..|results| - 1] == prefix;
  }

  /** Tallying a batch equals tallying its parts and combining them. */
  lemma {:induction false} TallyAppend(a: seq<AnalysisResult>, b: seq<AnalysisResult>)
    ensures TallyResults(a + b) == Combine(TallyResults(a), TallyResults(b))
    decreases |b|
  {
    if b == [] {
      assert a + b == a;
      CombineEmpty(TallyResults(a));
    } else {
      var prefix := b[..|b| - 1];
      var last := b[|b| - 1];
      TallyLast(b, prefix, last);
      assert a + b == (a + prefix) + [last];
      TallyLast(a + b, a + prefix, last);
      TallyAppend(a, prefix);
      CombineStep(TallyResults(a), TallyResults(prefix), last);
    }
  }

  /** The aggregate does not depend on the order of the two parts. */
  lemma TallyOrderIrrelevant(a: seq<AnalysisResult>, b: seq<AnalysisResult>)
    ensures TallyResults(a + b) == TallyResults(b + a)
  {
    TallyAppend(a, b);
    TallyAppend(b, a);
  }

  /** `x` added up `n` times. */
  function Times(x: real, n: nat): real {
    if n == 0 then 0.0 else Times(x, n - 1) + x
  }

  lemma {:induction false} TimesIsProduct(x: real, n: nat)
    ensures Times(x, n) == x * n as real
  {
    if n > 0 {
      TimesIsProduct(x, n - 1);
      assert x * n as real == x * (n - 1) as real + x;
    }
  }

  /** When every score lies in [lo, hi], the sum of `n` scores lies between
      `n` times `lo` and `n` times `hi`. */
  lemma {:induction false} ScoreSumBounds(results: seq<AnalysisResult>, lo: real, hi: real)
    requires forall i :: 0 <= i < |results| ==> lo <= results[i].score <= hi
    ensures Times(lo, |results|) <= TallyResults(results).scoreSum <= Times(hi, |results|)
    decreases |results|
  {
    if results != [] {
      var prefix := results[..|results| - 1];
      var last := results[|results| - 1];
      assert forall i :: 0 <= i < |prefix| ==> prefix[i] == results[i];
      ScoreSumBounds(prefix, lo, hi);
      assert TallyResults(results).scoreSum == TallyResults(prefix).scoreSum + last.score;
      assert Times(lo, |results|) == Times(lo, |prefix|) + lo;
      assert Times(hi, |results|) == Times(hi, |prefix|) + hi;
    }
  }

  /** The summary's trend: the label with a strict majority, or Mixed when
      no label has one. */
  function Dominance(c: LabelCounts): (t: Trend)
    ensures forall l :: t == Dominant(l) <==> HasStrictMajority(c, l)
    ensures t == Mixed <==> forall l :: !HasStrictMajority(c, l)
  {
    StrictMajorityCases(c);
    if c.positive > c.negative && c.positive > c.neutral then Dominant(Positive)
    else if c.negative > c.positive && c.negative > c.neutral then Dominant(Negative)
    else if c.neutral > c.positive && c.neutral > c.negative then Dominant(Neutral)
    else Mixed
  }

  /** The inputs the recommendation rules look at. */
  datatype Signals = Signals(
    pos: nat, neg: nat, neu: nat, total: nat, avgScore: real, confidenceRatio: real)

  /** The threshold rule that emits `rec` fires. */
  ghost predicate Applies(rec: Recommendation, sig: Signals) {
    match rec
    case AddressNegativeFeedback => sig.neg > sig.pos
    case ImproveSatisfaction => sig.neg > sig.pos
    case LeveragePositiveSentiment => sig.pos as real > sig.total as real * 0.6
    case AmplifyPositiveVoices => sig.pos as real > sig.total as real * 0.6
    case EngageNeutralInfluencers => sig.neu as real > sig.total as real * 0.4
    case StrengthenValueProposition => sig.neu as real > sig.total as real * 0.4
    case CriticalAction => sig.avgScore < 0.4
    case MaintainStrategies => sig.avgScore > 0.7
    case GatherMoreData => sig.confidenceRatio < 0.5
  }

  /** The list follows the fixed rule order, with no repetition. */
  ghost predicate StrictlyRanked(rs: seq<Recommendation>) {
    forall i, j :: 0 <= i < j < |rs| ==> rs[i].Rank() < rs[j].Rank()
  }

  lemma RankInjective(x: Recommendation, y: Recommendation)
    ensures x.Rank() == y.Rank() <==> x == y
  {
  }

  /** `rs` lists, in rule order, exactly the recommendations of rank in
      [lo, hi) whose rule fires. */
  ghost predicate Covers(rs: seq<Recommendation>, lo: nat, hi: nat, sig: Signals) {
    && StrictlyRanked(rs)
    && (forall i :: 0 <= i < |rs| ==> lo <= rs[i].Rank() < hi)
    && (forall rec :: rec in rs <==> lo <= rec.Rank() < hi && Applies(rec, sig))
  }

  /** Lists covering adjacent rank windows join into one covering both. */
  lemma JoinCovers(a: seq<Recommendation>, b: seq<Recommendation>, lo: nat, mid: nat, hi: nat, sig: Signals)
    requires lo <= mid <= hi
    requires Covers(a, lo, mid, sig) && Covers(b, mid, hi, sig)
    ensures Covers(a + b, lo, hi, sig)
  {
    var ab := a + b;
    forall i, j | 0 <= i < j < |ab|
      ensures ab[i].Rank() < ab[j].Rank()
    {
      if j < |a| {
        assert ab[i] == a[i] && ab[j] == a[j];
      } else if i >= |a| {
        assert ab[i] == b[i - |a|] && ab[j] == b[j - |a|];
      } else {
        assert ab[i] == a[i] && ab[j] == b[j - |a|];
      }
    }
    forall i | 0 <= i < |ab|
      ensures lo <= ab[i].Rank() < hi
    {
      if i >= |a| {
        assert ab[i] == b[i - |a|];
      } else {
        assert ab[i] == a[i];
      }
    }
  }

  /** The recommendations for a batch: every rule that fires contributes,
      in rule order; the critical and the excellent notes exclude each other. */
  function Recommend(pos: nat, neg: nat, neu: nat, total: nat, avgScore: real, confidenceRatio: real)
    : (rs: seq<Recommendation>)
    ensures Covers(rs, 0, 9, Signals(pos, neg, neu, total, avgScore, confidenceRatio))
    ensures forall rec :: rec in rs <==> Applies(rec, Signals(pos, neg, neu, total, avgScore, confidenceRatio))
    ensures |rs| <= 8
    ensures !(CriticalAction in rs && MaintainStrategies in rs)
  {
    var sig := Signals(pos, neg, neu, total, avgScore, confidenceRatio);
    var remediation := Remediation(sig);
    var amplification := Amplification(sig);
    var engagement := Engagement(sig);
    var overall := OverallScore(sig);
    var sufficiency := DataSufficiency(sig);
    JoinCovers(overall, sufficiency, 6, 8, 9, sig);
    JoinCovers(engagement, overall + sufficiency, 4, 6, 9, sig);
    JoinCovers(amplification, engagement + (overall + sufficiency), 2, 4, 9, sig);
    JoinCovers(remediation, amplification + (engagement + (overall + sufficiency)), 0, 2, 9, sig);
    remediation + (amplification + (engagement + (overall + sufficiency)))
  }

  /** More negative than positive results: address the negative feedback. */
  function Remediation(sig: Signals): (rs: seq<Recommendation>)
    ensures Covers(rs, 0, 2, sig)
    ensures |rs| <= 2
  {
    if sig.neg > sig.pos then [AddressNegativeFeedback, ImproveSatisfaction] else []
  }

  /** Over 60% positive: amplify it. */
  function Amplification(sig: Signals): (rs: seq<Recommendation>)
    ensures Covers(rs, 2, 4, sig)
    ensures |rs| <= 2
  {
    if sig.pos as real > sig.total as real * 0.6 then [LeveragePositiveSentiment, AmplifyPositiveVoices] else []
  }

  /** Over 40% neutral: engage the undecided. */
  function Engagement(sig: Signals): (rs: seq<Recommendation>)
    ensures Covers(rs, 4, 6, sig)
    ensures |rs| <= 2
  {
    if sig.neu as real > sig.total as real * 0.4 then [EngageNeutralInfluencers, StrengthenValueProposition] else []
  }

  /** A very low average calls for action; otherwise a very high one for
      keeping course. Never both. */
  function OverallScore(sig: Signals): (rs: seq<Recommendation>)
    ensures Covers(rs, 6, 8, sig)
    ensures |rs| <= 1
  {
    if sig.avgScore < 0.4 then [CriticalAction]
    else if sig.avgScore > 0.7 then [MaintainStrategies]
    else []
  }

  /** Under half the results confident: gather more data. */
  function DataSufficiency(sig: Signals): (rs: seq<Recommendation>)
    ensures Covers(rs, 8, 9, sig)
    ensures |rs| <= 1
  {
    if sig.confidenceRatio < 0.5 then [GatherMoreData] else []
  }

  /** Any list in rule order holding exactly the recommendations whose rules
      fire is the one the aggregator produces. */
  lemma RecommendationsDetermined(pos: nat, neg: nat, neu: nat, total: nat, avgScore: real,
                                  confidenceRatio: real, rs: seq<Recommendation>)
    requires StrictlyRanked(rs)
    requires forall rec :: rec in rs <==> Applies(rec, Signals(pos, neg, neu, total, avgScore, confidenceRatio))
    ensures rs == Recommend(pos, neg, neu, total, avgScore, confidenceRatio)
  {
    RankedListsWithSameMembersAreEqual(rs, Recommend(pos, neg, neu, total, avgScore, confidenceRatio));
  }

  /** The head of a list in rule order outranks nothing else in it. */
  lemma RankedHeadIsLeast(a: seq<Recommendation>, x: Recommendation)
    requires StrictlyRanked(a) && x in a
    ensures a[0].Rank() <= x.Rank()
  {
    var k :| 0 <= k < |a| && a[k] == x;
    if k > 0 {
      assert a[0].Rank() < a[k].Rank();
    }
  }

  /** A member of a list that is not its head lies in its tail. */
  lemma MemberOfTail(a: seq<Recommendation>, x: Recommendation)
    requires a != [] && x in a && x != a[0]
    ensures x in a[1..]
  {
    var k :| 0 <= k < |a| && a[k] == x;
    assert a[1..][k - 1] == x;
  }

  /** A list is empty exactly when nothing is a member of it. */
  lemma EmptyIffNoMembers(b: seq<Recommendation>)
    ensures b == [] <==> forall x :: x !in b
  {
    if b != [] {
      assert b[0] in b;
    }
  }

  /** Two lists in rule order with the same members are the same list. */
  lemma {:induction false} RankedListsWithSameMembersAreEqual(a: seq<Recommendation>, b: seq<Recommendation>)
    requires StrictlyRanked(a) && StrictlyRanked(b)
    requires forall x :: x in a <==> x in b
    ensures a == b
    decreases |a|
  {
    if a == [] {
      EmptyIffNoMembers(b);
    } else {
      assert a[0] in a && b[0] in b;
      RankedHeadIsLeast(b, a[0]);
      RankedHeadIsLeast(a, b[0]);
      RankInjective(a[0], b[0]);
      forall x
        ensures x in a[1..] <==> x in b[1..]
      {
        if x in a[1..] {
          RankedHeadIsLeast(a[1..], x);
          assert a[1..][0] == a[1];
          assert a[0].Rank() < a[1].Rank();
          MemberOfTail(b, x);
        }
        if x in b[1..] {
          RankedHeadIsLeast(b[1..], x);
          assert b[1..][0] == b[1];
          assert b[0].Rank() < b[1].Rank();
          MemberOfTail(a, x);
        }
      }
      RankedListsWithSameMembersAreEqual(a[1..], b[1..]);
      assert a == [a[0]] + a[1..];
      assert b == [b[0]] + b[1..];
    }
  }

  /** The mean of `n` values adding up to `sum`. */
  function Mean(sum: real, n: nat): (m: real)
    requires n > 0
    ensures m * n as real == sum
  {
    sum / n as real
  }

  /** `k` out of `n`, as a fraction. */
  function Fraction(k: nat, n: nat): (f: real)
    requires 0 < n && k <= n
    ensures 0.0 <= f <= 1.0
    ensures f * n as real == k as real
  {
    k as real / n as real
  }

  /** The label distribution: every label is a key, mapped to its count. */
  function Distribution(c: LabelCounts): (d: map<Sentiment, nat>)
    ensures d.Keys == AllLabels()
    ensures forall l :: l in d ==> d[l] == c.Of(l)
    ensures d[Positive] == c.positive && d[Negative] == c.negative && d[Neutral] == c.neutral
  {
    map[Positive := c.positive, Negative := c.negative, Neutral := c.neutral]
  }

  /** The insight summary of a batch of results. */
  function Generate(results: seq<AnalysisResult>): (s: InsightSummary)
    ensures results == [] ==> s == InsightSummary(NoStatements, map[], 0.0, 0, [])
    ensures results != [] ==>
      && s.totalStatements == |results|
      && s.distribution.Keys == AllLabels()
      && (forall l :: l in s.distribution ==> s.distribution[l] == TallyResults(results).counts.Of(l))
      && s.distribution[Positive] + s.distribution[Negative] + s.distribution[Neutral] == s.totalStatements
      && s.averageScore == Mean(TallyResults(results).scoreSum, |results|)
      && s.summary.Described?
      && s.summary.highConfidenceRatio == Fraction(TallyResults(results).highConfidence, |results|)
      && s.summary.trend == Dominance(TallyResults(results).counts)
      && s.recommendations == Recommend(
           s.distribution[Positive], s.distribution[Negative], s.distribution[Neutral],
           s.totalStatements, s.averageScore, s.summary.highConfidenceRatio)
  {
    if results == [] then InsightSummary(NoStatements, map[], 0.0, 0, [])
    else
      var t := TallyResults(results);
      var total := |results|;
      var distribution := Distribution(t.counts);
      var average := Mean(t.scoreSum, total);
      var ratio := Fraction(t.highConfidence, total);
      var pos := distribution[Positive];
      var neg := distribution[Negative];
      var neu := distribution[Neutral];
      InsightSummary(
        Described(Dominance(t.counts), ratio),
        distribution,
        average,
        total,
        Recommend(pos, neg, neu, total, average, ratio))
  }

  /** Each label's share of the distribution is the number of results
      carrying it. */
  lemma DistributionCountsLabels(results: seq<AnalysisResult>, l: Sentiment)
    requires results != []
    ensures l in Generate(results).distribution
    ensures Generate(results).distribution[l] == multiset(Labels(results))[l]
  {
    TallyCountsLabels(results, l);
  }

  /** The summary's confidence ratio is the fraction of results whose
      confidence exceeds the threshold. */
  lemma ConfidenceRatioCountsHighConfidence(results: seq<AnalysisResult>)
    requires results != []
    ensures multiset(Confident(results))[true] <= |results|
    ensures Generate(results).summary.highConfidenceRatio
            == Fraction(multiset(Confident(results))[true], |results|)
  {
    TallyCountsHighConfidence(results);
  }

  /** A batch whose every score lies in [lo, hi] has its average there too. */
  lemma AverageWithinScoreBounds(results: seq<AnalysisResult>, lo: real, hi: real)
    requires results != []
    requires forall i :: 0 <= i < |results| ==> lo <= results[i].score <= hi
    ensures lo <= Generate(results).averageScore <= hi
  {
    ScoreSumBounds(results, lo, hi);
    MeanOfBoundedSum(TallyResults(results).scoreSum, |results|, lo, hi);
  }

  /** The mean of `n` values whose sum lies between `n` times `lo` and `n`
      times `hi` lies between `lo` and `hi`. */
  lemma MeanOfBoundedSum(sum: real, n: nat, lo: real, hi: real)
    requires n > 0
    requires Times(lo, n) <= sum <= Times(hi, n)
    ensures lo <= Mean(sum, n) <= hi
  {
    TimesIsProduct(lo, n);
    TimesIsProduct(hi, n);
    var avg := Mean(sum, n);
    assert avg * n as real == sum;
    assert lo * n as real <= avg * n as real <= hi * n as real;
    MeanWithin(avg, n as real, lo, hi);
  }

  /** A value whose `n`-fold lies between the `n`-folds of `lo` and `hi`
      lies between `lo` and `hi`. */
  lemma MeanWithin(avg: real, n: real, lo: real, hi: real)
    requires n > 0.0
    requires lo * n <= avg * n <= hi * n
    ensures lo <= avg <= hi
  {
    assert (avg - lo) * n >= 0.0;
    assert (hi - avg) * n >= 0.0;
  }

  /** A negative majority always brings the remediation pair, first. */
  lemma NegativeTrendLeadsWithRemediation(results: seq<AnalysisResult>)
    requires results != []
    requires Generate(results).summary.trend == Dominant(Negative)
    ensures Generate(results).recommendations[..2] == [AddressNegativeFeedback, ImproveSatisfaction]
  {
    var c := TallyResults(results).counts;
    StrictMajorityCases(c);
  }

  /** Analyzes a batch of statements and aggregates the results. */
  method GenerateInsights(config: AnalyzerConfig, statements: seq<string>, neutralDraws: seq<real>)
    returns (s: InsightSummary)
    requires |neutralDraws| == |statements|
    requires forall i :: 0 <= i < |neutralDraws| ==>
               Analyzer.NeutralScoreLow <= neutralDraws[i] <= Analyzer.NeutralScoreHigh
    ensures s.totalStatements == |statements|
    ensures statements == [] <==> s.summary == NoStatements
    ensures statements != [] ==> s.distribution.Keys == AllLabels()
    ensures s == Generate(Analyzer.AnalyzeBatch(config, statements, neutralDraws))
  {
    var results := Analyzer.AnalyzeBatch(config, statements, neutralDraws);
    s := Generate(results);
  }
}

=== FILE: models.dfy ===
/** The data model of the sentiment service: the three labels, the
    per-statement analysis result, the analyzer's configuration with its
    shipped defaults, and the shape of the aggregated insight summary. */
module Models {

  import opened Text

  /** The sentiment labels, in the order the service enumerates them. */
  datatype Sentiment = Positive | Negative | Neutral {
    /** The sentiment's value on the wire and as a distribution key. */
    function Value(): string {
      match this
      case Positive => "positive"
      case Negative => "negative"
      case Neutral => "neutral"
    }
  }

  /** Every sentiment, each once. */
  function AllLabels(): (labels: set<Sentiment>)
    ensures Positive in labels && Negative in labels && Neutral in labels
    ensures |labels| == 3
  {
    {Positive, Negative, Neutral}
  }

  /** Distinct labels have distinct wire values. */
  lemma ValueInjective(a: Sentiment, b: Sentiment)
    ensures a.Value() == b.Value() <==> a == b
  {
  }

  /** What the analyzer says about one statement. */
  datatype AnalysisResult = AnalysisResult(
    sentiment: Sentiment,
    score: real,
    confidence: real,
    keywordsFound: seq<string>)

  /** The classification policy. Keyword lists are sequences: order and
      duplicates both matter to the analyzer's output. */
  datatype AnalyzerConfig = AnalyzerConfig(
    positiveKeywords: seq<string>,
    negativeKeywords: seq<string>,
    neutralKeywords: seq<string>,
    confidenceThreshold: real,
    minimumScore: real,
    maximumScore: real)

  /** Every keyword of the list is free of upper-case letters. */
  predicate AllLowerCase(keywords: seq<string>) {
    forall i :: 0 <= i < |keywords| ==> IsLowerCase(keywords[i])
  }

  /** The configuration the service is constructed with. */
  function DefaultConfig(): (c: AnalyzerConfig)
    ensures |c.positiveKeywords| == 11 && |c.negativeKeywords| == 10 && |c.neutralKeywords| == 6
    ensures 0.0 < c.minimumScore < c.maximumScore < 1.0
  {
    AnalyzerConfig(
      ["love", "amazing", "impressed", "quality", "great", "excellent",
       "wonderful", "outstanding", "fantastic", "awesome", "perfect"],
      ["disappointing", "not happy", "hope they improve", "bad", "terrible",
       "awful", "worst", "hate", "horrible", "disappointing"],
      ["neutral", "mixed feelings", "okay", "average", "uncertain", "unsure"],
      0.7,
      0.1,
      0.9)
  }

  /** How many of something carry each sentiment. */
  datatype LabelCounts = LabelCounts(positive: nat, negative: nat, neutral: nat) {
    function Of(sentiment: Sentiment): nat {
      match sentiment
      case Positive => positive
      case Negative => negative
      case Neutral => neutral
    }

    function Total(): nat {
      positive + negative + neutral
    }

    /** The counts after one more item with `sentiment`. */
    function Add(sentiment: Sentiment): (c: LabelCounts)
      ensures c.Of(sentiment) == Of(sentiment) + 1
      ensures forall l :: l != sentiment ==> c.Of(l) == Of(l)
      ensures c.Total() == Total() + 1
    {
      match sentiment
      case Positive => LabelCounts(positive + 1, negative, neutral)
      case Negative => LabelCounts(positive, negative + 1, neutral)
      case Neutral => LabelCounts(positive, negative, neutral + 1)
    }
  }

  /** `sentiment` strictly outnumbers each of the other labels. */
  ghost predicate HasStrictMajority(c: LabelCounts, sentiment: Sentiment) {
    forall other: Sentiment :: other != sentiment ==> c.Of(other) < c.Of(sentiment)
  }

  /** The strict-majority condition spelled out for each label. */
  lemma StrictMajorityCases(c: LabelCounts)
    ensures HasStrictMajority(c, Positive) <==> c.positive > c.negative && c.positive > c.neutral
    ensures HasStrictMajority(c, Negative) <==> c.negative > c.positive && c.negative > c.neutral
    ensures HasStrictMajority(c, Neutral) <==> c.neutral > c.positive && c.neutral > c.negative
  {
    assert c.Of(Positive) == c.positive && c.Of(Negative) == c.negative && c.Of(Neutral) == c.neutral;
  }

  /** At most one sentiment can hold a strict majority. */
  lemma StrictMajorityUnique(c: LabelCounts, a: Sentiment, b: Sentiment)
    requires HasStrictMajority(c, a)
    ensures HasStrictMajority(c, b) <==> a == b
  {
    if a != b {
      assert c.Of(b) < c.Of(a);
    }
  }

  /** The overall trend of a batch: one sentiment dominates, or none does. */
  datatype Trend = Dominant(sentiment: Sentiment) | Mixed

  /** The summary sentence, reduced to what it reports: either that there was
      nothing to analyze, or the trend and the fraction of results whose
      confidence is high. */
  datatype Summary =
    | NoStatements
    | Described(trend: Trend, highConfidenceRatio: real)

  /** The fixed recommendations the aggregator can emit, in emission order. */
  datatype Recommendation =
    | AddressNegativeFeedback
    | ImproveSatisfaction
    | LeveragePositiveSentiment
    | AmplifyPositiveVoices
    | EngageNeutralInfluencers
    | StrengthenValueProposition
    | CriticalAction
    | MaintainStrategies
    | GatherMoreData
  {
    /** Position of the rule that emits this recommendation. */
    function Rank(): nat {
      match this
      case AddressNegativeFeedback => 0
      case ImproveSatisfaction => 1
      case LeveragePositiveSentiment => 2
      case AmplifyPositiveVoices => 3
      case EngageNeutralInfluencers => 4
      case StrengthenValueProposition => 5
      case CriticalAction => 6
      case MaintainStrategies => 7
      case GatherMoreData => 8
    }

    /** The text the service returns for this recommendation. */
    function Text(): string {
      match this
      case AddressNegativeFeedback => "Address negative feedback urgently to prevent reputation damage"
      case ImproveSatisfaction => "Implement customer satisfaction improvement initiatives"
      case LeveragePositiveSentiment => "Leverage positive sentiment for marketing campaigns"
      case AmplifyPositiveVoices => "Identify and amplify positive influencer voices"
      case EngageNeutralInfluencers => "Engage neutral influencers with targeted content"
      case StrengthenValueProposition => "Provide more compelling value propositions"
      case CriticalAction => "Critical: Overall sentiment is very low - immediate action required"
      case MaintainStrategies => "Excellent: Maintain current strategies and expand successful initiatives"
      case GatherMoreData => "Consider gathering more data for better analysis confidence"
    }
  }

  /** The aggregate over a batch of results. */
  datatype InsightSummary = InsightSummary(
    summary: Summary,
    distribution: map<Sentiment, nat>,
    averageScore: real,
    totalStatements: nat,
    recommendations: seq<Recommendation>)
}

=== FILE: text.dfy ===
/** String helpers the keyword analyzer relies on: lower-casing a statement
    and naive substring search (no tokenisation, no word boundaries). */
module Text {

  predicate IsUpper(c: char) {
    'A' <= c <= 'Z'
  }

  /** Lower-cases one character; only the ASCII letters A-Z change. */
  function LowerChar(c: char): (d: char)
    ensures !IsUpper(d)
    ensures !IsUpper(c) ==> d == c
  {
    if IsUpper(c) then (c as int + 32) as char else c
  }

  /** No character of `s` is an upper-case letter. */
  predicate IsLowerCase(s: string) {
    forall i :: 0 <= i < |s| ==> !IsUpper(s[i])
  }

  /** The lower-cased copy of a statement that keywords are matched against. */
  function ToLower(s: string): (r: string)
    ensures |r| == |s|
    ensures forall i :: 0 <= i < |s| ==> r[i] == LowerChar(s[i])
    ensures IsLowerCase(r)
    ensures IsLowerCase(s) ==> r == s
  {
    seq(|s|, i requires 0 <= i < |s| => LowerChar(s[i]))
  }

  /** Lower-casing twice is lower-casing once. */
  lemma ToLowerIdempotent(s: string)
    ensures ToLower(ToLower(s)) == ToLower(s)
  {
  }

  predicate IsPrefix(p: string, s: string) {
    |p| <= |s| && s[..|p|] == p
  }

  /** `needle` occurs somewhere in `hay`; the empty needle occurs in every string. */
  predicate Occurs(needle: string, hay: string)
    decreases |hay|
  {
    IsPrefix(needle, hay) || (|hay| > 0 && Occurs(needle, hay[1..]))
  }

  /** `needle` occurs in `hay` starting at position `i`. */
  ghost predicate OccursAt(needle: string, hay: string, i: int) {
    0 <= i && i + |needle| <= |hay| && hay[i..i + |needle|] == needle
  }

  /** An occurrence at any position is found by the search. */
  lemma {:induction false} OccursAtIsFound(needle: string, hay: string, i: int)
    requires OccursAt(needle, hay, i)
    ensures Occurs(needle, hay)
    decreases i
  {
    if i == 0 {
      assert IsPrefix(needle, hay);
    } else {
      assert hay[1..][i - 1..i - 1 + |needle|] == hay[i..i + |needle|];
      OccursAtIsFound(needle, hay[1..], i - 1);
    }
  }

  /** The search agrees with the positional definition of a substring. */
  lemma {:induction false} OccursIffSomePosition(needle: string, hay: string)
    ensures Occurs(needle, hay) <==> exists i :: OccursAt(needle, hay, i)
    decreases |hay|
  {
    if exists i :: OccursAt(needle, hay, i) {
      var i :| OccursAt(needle, hay, i);
      OccursAtIsFound(needle, hay, i);
    }
    if Occurs(needle, hay) {
      if IsPrefix(needle, hay) {
        assert OccursAt(needle, hay, 0);
      } else {
        OccursIffSomePosition(needle, hay[1..]);
        var i :| OccursAt(needle, hay[1..], i);
        assert hay[1..][i..i + |needle|] == hay[i + 1..i + 1 + |needle|];
        assert OccursAt(needle, hay, i + 1);
      }
    }
  }

  /** Lower-casing commutes with taking a slice. */
  lemma ToLowerSlice(s: string, i: int, j: int)
    requires 0 <= i <= j <= |s|
    ensures ToLower(s)[i..j] == ToLower(s[i..j])
  {
    var whole := ToLower(s)[i..j];
    var part := ToLower(s[i..j]);
    forall k | 0 <= k < j - i
      ensures whole[k] == part[k]
    {
      assert whole[k] == ToLower(s)[i + k] == LowerChar(s[i + k]);
      assert part[k] == LowerChar(s[i..j][k]);
    }
  }

  /** A word found in a statement in any mix of cases is found, lower-cased,
      in the lower-cased statement. */
  lemma CaseVariantIsMatched(w: string, s: string)
    requires Occurs(w, s)
    ensures Occurs(ToLower(w), ToLower(s))
  {
    OccursIffSomePosition(w, s);
    var i :| OccursAt(w, s, i);
    ToLowerSlice(s, i, i + |w|);
    assert OccursAt(ToLower(w), ToLower(s), i);
    OccursIffSomePosition(ToLower(w), ToLower(s));
  }

  /** The slice of `s` at position `i` as long as `k` lower-cases to `k`. */
  ghost predicate SliceLowersTo(s: string, i: int, k: string) {
    0 <= i && i + |k| <= |s| && ToLower(s[i..i + |k|]) == k
  }

  /** A keyword matches the lower-cased statement exactly when some slice of
      the original statement, in whatever case, lower-cases to it. */
  lemma MatchIffSomeSliceLowersTo(k: string, s: string)
    ensures Occurs(k, ToLower(s)) <==> exists i :: SliceLowersTo(s, i, k)
  {
    OccursIffSomePosition(k, ToLower(s));
    if Occurs(k, ToLower(s)) {
      var i :| OccursAt(k, ToLower(s), i);
      ToLowerSlice(s, i, i + |k|);
      assert SliceLowersTo(s, i, k);
    }
    if exists i :: SliceLowersTo(s, i, k) {
      var i :| SliceLowersTo(s, i, k);
      ToLowerSlice(s, i, i + |k|);
      assert OccursAt(k, ToLower(s), i);
    }
  }

  /** Only a keyword free of upper-case letters can match a lower-cased
      statement: a keyword written with a capital never matches. */
  lemma MatchedKeywordIsLowerCase(k: string, s: string)
    requires Occurs(k, ToLower(s))
    ensures IsLowerCase(k)
  {
    var lowered := ToLower(s);
    OccursIffSomePosition(k, lowered);
    var i :| OccursAt(k, lowered, i);
    forall j | 0 <= j < |k|
      ensures !IsUpper(k[j])
    {
      assert k[j] == lowered[i..i + |k|][j] == lowered[i + j];
    }
  }
}
